=== FILE: README.md ===
# QRNG lab: verified model of the sampling, statistics and export core

The QRNG lab is a Streamlit dashboard. It runs an n-qubit Hadamard circuit on a
simulator and turns the measured bit-patterns into a list of random integers. It describes
that list statistically, tests it for uniformity with a chi-square test and offers it for
download as TXT and CSV. This project models the computational core of `main.py` in Dafny
and proves what that core guarantees:

- `Sampling`: the loop that expands the simulator's frequency map (pattern ↦ count, in dict
  traversal order) into the sample list, `generate_random_numbers`, lines 48-53.
  - `Sampling.Expand` is a method with a `while` loop that grows the list pattern by pattern.
  - It is proved against the specification function `Sampling.Expansion`, about which
    the length, block, range and occurrence lemmas are proved.
- `Numerals`:
  - `int(s, 2)` decodes the patterns;
  - `str(v)` prints the exported values;
  - fixed-width binary patterns are the inverse of `int(s, 2)`.
- `Statistics`: `calculate_statistics`, which gives the mean, the theoretical mean
  `(2^n - 1) / 2`, the population variance (the square of `np.std`), min, max, the
  distinct-value count and the total.
- `Uniformity`: `chi_square_test`, which covers:
  - `np.bincount(data, minlength=2^n)`, whose length is `2^n` or one more than the largest
    sample, whichever is larger;
  - the statistic `Σ (O - E)² / E` with `E = N / 2^n` over every bin of that histogram;
  - `2^n - 1` degrees of freedom;
  - the p-value `1 - cdf(statistic, dof)`.
- `Export`: the TXT (`"\n".join(map(str, data))`) and CSV (`"index,value\n"` plus
  `"i,val"` lines) exports, with parsers that read them back.
- `Pipeline`: expansion feeding the statistics and the chi-square test, and two worked
  examples at n = 2.
- `Arithmetic`: the squares, products and quotients that the statistics and the chi-square
  test share.
- `Outcomes`: `Option`, `Result` and the error kinds.

Floating-point doubles are modelled as exact `real`s (rationals). Where Python raises or
yields NaN, the model returns an error value:
- an empty sample list makes `np.min` raise: `EmptySampleSet`;
- an empty sample list makes `0 / 0` in the chi-square test: `DegenerateTest`;
- a negative sample makes `np.bincount` raise: `NegativeSample`;
- with `2^n >= 2`, a sample of `2^n` or more makes the histogram longer than the `2^n`
  expected frequencies, so the subtraction cannot broadcast and raises: `SampleOutOfRange`;
- a pattern `int(s, 2)` rejects: `MalformedPattern`.

Three things the code does not check, and what it does instead:
- `main.py` does not reject a negative count. `[v] * count` with `count < 0` is the empty
  list, so such a pair adds no samples (`Sampling.Copies`).
- `main.py` does not check that a pattern has exactly n digits. Any non-empty binary
  pattern is decoded. The range guarantee is proved under the hypothesis that all
  patterns have n digits (`Sampling.PatternsOfWidth`).
- `main.py` does not check the bit width. At n = 0 there is one expected frequency
  `np.full(1, N)`, and NumPy broadcasts it over every bin of the histogram, however long:
  the test succeeds on any non-negative samples that fit NumPy's 64-bit index type and
  memory. The model broadcasts the same way (`Uniformity.SingleBinExample`: the sample
  list `[1]` gives statistic 1 with 0 degrees of freedom), but it has no 64-bit or memory
  bound, so it succeeds on every non-negative sample list (see "Left out").

## Model

| member | source | states |
|---|---|---|
| Sampling.Expansion | main.py:48-51 | the sample list a well-formed map expands to; no contract of its own, `ExpansionLength`, `ExpansionBlock`, `ExpansionOccurrences` and `ExpansionRange` give its meaning, and `Sampling.Expand` computes it |
| Sampling.Expand | main.py:48-53 | succeeds exactly when every pattern decodes; then the result is the expansion of the map; otherwise it fails naming the first pattern that does not decode |
| Sampling.Repeat | main.py:51 | `[v] * count` has `max(count, 0)` elements, all equal to v |
| Sampling.ExpansionAppend | main.py:48-51 | expanding a concatenation of maps is the concatenation of the expansions (the list is only ever extended) |
| Sampling.ExpansionLength | main.py:48-51 | the sample list has as many elements as the counts add up to; with non-negative counts, exactly the number of shots |
| Sampling.ExpansionBlock | main.py:49-51 | the i-th pair contributes `count` copies of `int(pattern, 2)` as one contiguous block, starting after the blocks of the pairs before it |
| Sampling.ExpansionOccurrences | main.py:49-51 | value v occurs in the sample list exactly as often as the counts of the patterns decoding to v add up to |
| Sampling.RepeatOccurrences | main.py:51 | `[x] * count` holds v `max(count, 0)` times when x = v and never otherwise |
| Sampling.ExpansionRange | main.py:49-51 | when all patterns are n-digit binary strings, every sample lies in [0, 2^n - 1] |
| Numerals.ParseNumeral | main.py:50 | `int(s, base)` succeeds exactly on non-empty digit strings, with a value below base^len(s) |
| Numerals.FixedWidthValue | main.py:50 | decoding the width-digit rendering of v < base^width gives v back |
| Numerals.ValueFixedWidth | main.py:50 | rendering the value of a digit string at its own width gives the string back |
| Numerals.ValueBound | main.py:50 | a digit string of length l has a value below base^l |
| Numerals.Decimal | main.py:388 | `str(v)` is a non-empty string of decimal digits without a leading zero |
| Numerals.DecimalValue | main.py:388 | the digits of `str(v)` have value v |
| Numerals.ParseDecimal | main.py:388 | `int(str(v))` is v |
| Statistics.Mean | main.py:64 | `np.mean`: the sum over the count; no contract of its own, `MeanBetweenMinMax` and `MeanBounds` bound it |
| Statistics.Variance | main.py:66 | the square of `np.std`, the squared deviations from the mean over N; no contract of its own, `VarianceScaled`, `VarianceNonNegative` and `VarianceZeroIffConstant` give its meaning |
| Statistics.TheoreticalMean | main.py:61-65 | `(2^n - 1) / 2`; no contract of its own, `TheoreticalMeanIsUniformMean` shows it is the mean of the n-bit values |
| Statistics.Distinct | main.py:69 | `set(data)`; no contract of its own, `UniqueValuesAtMostLength` and `UniqueValuesAtMostBins` bound its size |
| Statistics.Min | main.py:67 | the minimum is one of the samples and no sample is smaller |
| Statistics.Max | main.py:68 | the maximum is one of the samples and no sample is larger |
| Statistics.Describe | main.py:59-73 | fails with EmptySampleSet exactly on the empty list; otherwise: total is the length; min and max are samples bounding all samples; min ≤ mean ≤ max; variance ≥ 0; distinct values ≤ total; distinct values ≤ 2^n when samples are in range |
| Statistics.SumBounds | main.py:64 | samples between lo and hi add up to between N·lo and N·hi |
| Statistics.MeanBetweenMinMax | main.py:64-68 | the mean lies between the minimum and the maximum |
| Statistics.MeanBounds | main.py:64 | the mean of samples in [lo, hi] lies in [lo, hi] |
| Arithmetic.SquaredDistanceScaled | main.py:66 | (x - S/N)² equals the integer (N·x - S)² divided by N² |
| Statistics.SquaredDeviationsScaled | main.py:66 | the squared deviations from S/N equal the integer sum of (N·x - S)² divided by N² |
| Statistics.VarianceScaled | main.py:66 | the population variance equals Σ (N·x - S)² / N³, an exact integer form |
| Arithmetic.ScaledSquaresZero | main.py:66-89 | Σ (N·x - S)² is non-negative, and zero exactly when every N·x equals S; with x the samples it bounds the variance (line 66), with x the bins and N, S the bin count and sample count it bounds the chi-square statistic (line 89) |
| Statistics.VarianceNonNegative | main.py:66 | the variance is never negative, so its square root `np.std` is defined |
| Statistics.VarianceZeroIffConstant | main.py:66 | the variance, hence the standard deviation, is zero exactly when all samples are equal |
| Statistics.UniqueValuesAtMostLength | main.py:69-70 | `len(set(data))` ≤ `len(data)` |
| Statistics.UniqueValuesAtMostBins | main.py:61-69 | if every sample lies in [0, k), there are at most k distinct values |
| Statistics.BelowSize | main.py:61 | there are exactly k values in [0, k) |
| Statistics.RangeSum | main.py:65 | 0 + 1 + … + (k - 1) = k(k - 1)/2 |
| Statistics.TheoreticalMeanIsUniformMean | main.py:61-65 | the theoretical mean (2^n - 1)/2 is the mean of the n-bit values each taken once |
| Statistics.SumOfAppend | main.py:64-66 | a per-sample sum over a concatenation is the sum of the parts |
| Statistics.SumOfPermutation | main.py:64-66 | a per-sample sum does not depend on the order of the samples |
| Statistics.SumIsSumOf | main.py:64 | the sum of the samples is the per-sample sum of the identity |
| Statistics.ScaledDeviationsIsSumOf | main.py:66 | Σ (N·x - S)² is a per-sample sum |
| Statistics.DescribeOrderInvariant | main.py:59-73 | the report depends only on the multiset of samples, not on their order |
| Uniformity.BincountLength | main.py:85 | the length of `np.bincount(data, minlength=k)` on non-negative samples: at least k, holding every sample, and either k or one more than some sample; it is k exactly when all samples are below k |
| Uniformity.BincountLengthPermutation | main.py:85 | rearranging the samples leaves the histogram length unchanged |
| Uniformity.SameBins | main.py:85 | a rearrangement of samples below k has all its samples below k |
| Uniformity.Bincount | main.py:85 | the histogram has exactly k bins |
| Uniformity.BincountCounts | main.py:85 | bin v holds the number of occurrences of v |
| Uniformity.BincountTotal | main.py:85 | the bins add up to the number of samples |
| Uniformity.TotalIncrement | main.py:85 | adding one to a bin adds one to the total |
| Uniformity.TotalZeros | main.py:85 | the initial all-zero histogram has total 0 |
| Uniformity.BincountPermutation | main.py:85 | rearranging the samples leaves the histogram unchanged |
| Uniformity.ChiSquareTest | main.py:76-93 | fails with DegenerateTest on the empty list, NegativeSample on a negative sample, SampleOutOfRange on a sample ≥ 2^n when 2^n ≥ 2; succeeds exactly otherwise, so at n = 0 on any non-negative samples (NumPy's 64-bit and memory limits are not modelled, see "Left out"); the statistic is ≥ 0, the degrees of freedom are 2^n - 1 and the p-value is 1 - cdf(statistic, dof) |
| Uniformity.ChiSquareSum | main.py:89 | `np.sum((observed - expected)**2 / expected)` with one expected frequency for every bin; no contract of its own, `ChiSquareNonNegative`, `ChiSquareZeroIff` and `ChiSquareShortForm` give its meaning |
| Uniformity.ChiSquareScaled | main.py:82-89 | Σ (O - N/K)² / (N/K) equals the integer Σ (K·O - N)² divided by K·N |
| Uniformity.DeviationScaled | main.py:89 | one term (O - N/K)² / (N/K) equals (K·O - N)² / (K·N) |
| Uniformity.ChiSquareNonNegative | main.py:89 | the statistic is never negative |
| Uniformity.ChiSquareZeroIff | main.py:82-89 | the statistic is zero exactly when every bin holds the expected frequency N/K |
| Uniformity.ScaledChiSquareExpanded | main.py:89 | Σ (K·O - N)² = K²·ΣO² - 2KN·ΣO + N²·L, L the number of bins |
| Uniformity.ChiSquareShortForm | main.py:82-89 | when L bins add up to N and E = N/K, the statistic equals ΣO²/E - 2N + L·E, written K·ΣO²/N - 2N + L·N/K |
| Uniformity.ChiSquareShortFormOverBins | main.py:82-89 | when the K bins themselves add up to N, the statistic equals the textbook ΣO²/E - N |
| Uniformity.ChiSquareTestZeroIff | main.py:81-89 | a successful test has statistic zero exactly when every bin of the histogram holds N/2^n samples; for samples below 2^n the bins are exactly the values in [0, 2^n) |
| Uniformity.ChiSquareTestShortForm | main.py:81-89 | a successful test's statistic equals Σ bincount²/E - 2N + L·E over the L bins of the histogram |
| Uniformity.ChiSquareTestShortFormInRange | main.py:81-89 | for samples below 2^n, a successful test's statistic equals Σ bincount²/E - N |
| Uniformity.ChiSquareTestOrderInvariant | main.py:76-93 | the test result depends only on the multiset of samples |
| Uniformity.SameNegatives | main.py:85 | a rearrangement has a negative sample when the original does |
| Uniformity.SingleBinExample | main.py:81-91 | at n = 0 the sample list [1] gives the histogram [0, 1], statistic 1, 0 degrees of freedom and p-value 1 - cdf(1, 0) |
| Export.Join | main.py:388 | `sep.join(parts)`; no contract of its own, `SplitJoin` shows that splitting undoes it |
| Export.Split | main.py:388 | the reader's half of the round trip, not in the source: Python's `s.split(sep)` with an explicit separator, which always returns at least one piece |
| Export.SplitJoin | main.py:388 | splitting `sep.join(parts)` gives the parts back when no part contains sep |
| Export.DecimalHasNoSeparator | main.py:388 | `str(v)` contains no newline and no comma |
| Export.Txt | main.py:388 | the TXT export `"\n".join(map(str, data))`; no contract of its own, `TxtLines` and `TxtRoundTrip` give its meaning |
| Export.TxtLines | main.py:388 | the TXT export of a non-empty list has exactly one line per sample, line i being `str(data[i])` |
| Export.ParseValuesDecimals | main.py:388 | reading the lines `str(v)` back gives the values |
| Export.TxtRoundTrip | main.py:388 | the TXT export is empty exactly for the empty list, and reading it back gives the samples in order |
| Export.CsvRecord | main.py:398 | the record `f"{i},{val}"`; no contract of its own, `RecordFields` shows its two fields |
| Export.Csv | main.py:398 | the CSV export, the header `index,value` and the records numbered from 0; no contract of its own, `CsvLines` and `CsvRoundTrip` give its meaning |
| Export.RecordFields | main.py:398 | the record `f"{i},{val}"` splits into `str(i)` and `str(val)` and has no newline |
| Export.ParseRecordsOfRecords | main.py:398 | reading the records back checks the indices and gives the values in order |
| Export.CsvLines | main.py:398 | the CSV export is the header line `index,value` followed by one record per sample |
| Export.CsvRoundTrip | main.py:398 | reading the CSV export back gives the samples in order |
| Pipeline.ExpandedHistogram | main.py:48-85 | for n-digit patterns, the histogram of the expansion has, in bin v, the counts of the patterns decoding to v |
| Pipeline.ExpandedSamplesAreTestable | main.py:48-93 | for n-digit patterns, statistics and test both succeed exactly when some count is positive; the mean then lies in [0, 2^n - 1] and there are at most 2^n distinct values |
| Pipeline.TwoBitPatterns | main.py:50 | "00", "01", "10", "11" decode to 0, 1, 2, 3 |
| Pipeline.UniformHistogram | main.py:48-85 | two shots of each 2-bit pattern expand to 8 samples with histogram [2, 2, 2, 2] |
| Pipeline.UniformCopies | main.py:48-51 | the uniform map asks for 8 samples, 2 of each value |
| Pipeline.ChiSquareSumOfFour | main.py:89 | with four bins the statistic is the sum of the four terms |
| Pipeline.UniformExample | main.py:76-93 | counts [2, 2, 2, 2] at n = 2 give statistic 0, 3 degrees of freedom and p-value 1 - cdf(0, 3) |
| Pipeline.SkewedExample | main.py:76-93 | counts [8, 0, 0, 0] at n = 2 give statistic 24, 3 degrees of freedom |

## Left out

- The circuit construction and the simulator run (main.py:13-45) are foreign library calls. The model takes their result, the frequency map, as an input to `Sampling.Expand`.
- Statistics.Describe: reports the variance where the source reports `np.std`, its square root. The square root over doubles is not modelled; `Statistics.VarianceNonNegative` shows it is defined.
- Uniformity.ChiSquareTest: the chi-square distribution function (`stats.chi2.cdf`, main.py:91) is a parameter. The model states only that the p-value is one minus it, at the statistic and the degrees of freedom.
- Uniformity.ChiSquareTest: NumPy's 64-bit index type and the available memory bound n and the sample values, and the model does not capture either limit. `np.bincount` (main.py:85) raises OverflowError for `minlength = 2^n` with n ≥ 63, and for a sample of 2^63 or more. Well below those limits, a large n, or a large sample at n = 0, exhausts memory. The model instead succeeds on any such input. The expected frequency `len(data) / 2^n` (main.py:82) is a double. It does not raise; for very large n it underflows to a subnormal or to 0.0. The model keeps it exact.
- Statistics.Describe: with n ≥ 1025, `max_value / 2` (main.py:65) raises OverflowError because the quotient is a double too large to represent. At n = 1024 it still rounds to 2^1023. The model's exact theoretical mean is defined for every n. Samples of 2^63 or more also leave NumPy's 64-bit integer type, which is not modelled.
- Floating point: means, the expected frequency and the chi-square sum are exact rationals in the model. Rounding of doubles is not modelled.
- Uniformity.ChiSquareTest: on an empty list the source yields NaN through 0/0 rather than raising. The model returns `DegenerateTest` instead of a NaN statistic.
- Numerals.ParseNumeral: accepts only plain digit strings. The underscores, surrounding whitespace, signs, `0b` prefix and non-ASCII Unicode decimal digits (such as the full-width '１') that Python's `int(s, 2)` also accepts are not modelled; the simulator never produces them.
- The Streamlit interface (main.py:99-433) is not modelled: layout, sliders, session state and reset, the plots, the preview grid and the download buttons. The mean-deviation percentage shown on screen (main.py:351-353) is display logic and is left out too.
- The two export strings are modelled; the file names and MIME types given to the download buttons are not.

=== FILE: arithmetic.dfy ===
/** Squares, products and quotients shared by the statistics and the chi-square test: the
    exact rational arithmetic that stands for the source's floating-point sums, and the step
    that turns a real square over a fraction into an integer square. */
module Arithmetic {
  function Square(x: real): real {
    x * x
  }

  function IntSquare(d: int): int {
    d * d
  }

  /** Every sample is one of the k bins 0 .. k - 1. */
  predicate InBins(data: seq<int>, k: nat) {
    forall i :: 0 <= i < |data| ==> 0 <= data[i] < k
  }

  function Sum(xs: seq<int>): int {
    if xs == [] then 0 else Sum(xs[..|xs| - 1]) + xs[|xs| - 1]
  }

  /** The sum of (n * x - s)^2 over the xs: n^2 times the squared distances of the xs from the
      fraction s / n, in integers. */
  function ScaledSquares(xs: seq<int>, s: int, n: int): int {
    if xs == [] then 0 else ScaledSquares(xs[..|xs| - 1], s, n) + IntSquare(n * xs[|xs| - 1] - s)
  }

  lemma ProductAsReal(a: int, b: int)
    ensures (a * b) as real == a as real * b as real
  {
  }

  lemma SquareFacts(d: int)
    ensures IntSquare(d) >= 0 && (IntSquare(d) == 0 <==> d == 0)
  {
  }

  /** (x - s / n)^2 == (n * x - s)^2 / n^2: the distance from a fraction, squared, in integers. */
  lemma SquaredDistanceScaled(x: int, s: int, n: nat)
    requires n > 0
    ensures Square(x as real - s as real / n as real) == IntSquare(n * x - s) as real / (n * n) as real
  {
    var d := n * x - s;
    assert x as real - s as real / n as real == d as real / n as real;
    assert (d * d) as real == d as real * d as real;
    assert (n * n) as real == n as real * n as real;
  }

  lemma {:induction false} ScaledSquaresZero(xs: seq<int>, s: int, n: int)
    ensures ScaledSquares(xs, s, n) >= 0
    ensures ScaledSquares(xs, s, n) == 0 <==> forall i :: 0 <= i < |xs| ==> n * xs[i] == s
  {
    if xs != [] {
      var p := xs[..|xs| - 1];
      ScaledSquaresZero(p, s, n);
      SquareFacts(n * xs[|xs| - 1] - s);
      assert (forall i :: 0 <= i < |xs| ==> n * xs[i] == s)
         <==> (forall i :: 0 <= i < |p| ==> n * p[i] == s) && n * xs[|xs| - 1] == s;
    }
  }

  lemma AddFractions(a: int, b: int, q: real)
    requires q > 0.0
    ensures a as real / q + b as real / q == (a + b) as real / q
  {
  }

  lemma DivideTwice(x: real, a: real, b: real)
    requires a > 0.0 && b > 0.0
    ensures x / a / b == x / (a * b)
  {
  }

  lemma QuotientBetween(s: real, n: real, lo: real, hi: real)
    requires n > 0.0 && n * lo <= s <= n * hi
    ensures lo <= s / n <= hi
  {
    assert s / n * n == s;
  }

  lemma CancelQuotient(a: int, k: int)
    requires k > 0
    ensures (k * a) as real / k as real == a as real
  {
    ProductAsReal(k, a);
  }

  lemma QuotientZero(x: int, d: nat)
    requires d > 0 && x as real / d as real == 0.0
    ensures x == 0
  {
  }

  lemma QuotientEquality(o: int, n: int, k: int)
    requires k > 0
    ensures k * o == n <==> o as real == n as real / k as real
  {
    ProductAsReal(k, o);
    if o as real == n as real / k as real {
      assert k as real * o as real == n as real;
    }
  }

  lemma CancelFactor(n: int, a: int, b: int)
    requires n > 0 && n * a == n * b
    ensures a == b
  {
    assert n * (a - b) == 0;
  }

  lemma Distribute(a: int, x: int, y: int)
    ensures a * (x + y) == a * x + a * y
  {
  }

  lemma MultiplyMonotone(a: nat, b: nat, c: nat)
    requires a <= b
    ensures a * c <= b * c
  {
  }
}

=== FILE: export.dfy ===
/** The two download formats of the sample list: plain text, one value per line, and CSV with
    an index column. Both are built with str.join; parsing them back uses str.split semantics. */
module Export {
  import opened Outcomes
  import opened Numerals

  /** sep.join(parts) */
  function Join(parts: seq<string>, sep: char): string {
    if |parts| == 0 then ""
    else if |parts| == 1 then parts[0]
    else parts[0] + [sep] + Join(parts[1..], sep)
  }

  /** s.split(sep): the pieces between the separators, empty ones included; never empty. */
  function Split(s: string, sep: char): (parts: seq<string>)
    ensures |parts| >= 1
  {
    if s == [] then [[]]
    else
      var rest := Split(s[1..], sep);
      if s[0] == sep then [[]] + rest
      else [[s[0]] + rest[0]] + rest[1..]
  }

  /** map(str, data) */
  function Lines(data: seq<nat>): seq<string> {
    seq(|data|, i requires 0 <= i < |data| => Decimal(data[i]))
  }

  /** "\n".join(map(str, data)) */
  function Txt(data: seq<nat>): string {
    Join(Lines(data), '\n')
  }

  /** f"{i},{val}" */
  function CsvRecord(i: nat, v: nat): string {
    Join([Decimal(i), Decimal(v)], ',')
  }

  const CsvHeader: string := "index,value\n"

  /** [f"{i},{val}" for i, val in enumerate(data)], the indices counted from start. */
  function Records(data: seq<nat>, start: nat): seq<string> {
    seq(|data|, i requires 0 <= i < |data| => CsvRecord(start + i, data[i]))
  }

  /** "index,value\n" + "\n".join(Records(data, 0)) */
  function Csv(data: seq<nat>): string {
    CsvHeader + Join(Records(data, 0), '\n')
  }

  /** Reads back a TXT export: the empty text is the empty list, otherwise one decimal per line. */
  function ParseTxt(s: string): Option<seq<nat>> {
    if s == [] then Some([]) else ParseValues(Split(s, '\n'))
  }

  function ParseValues(lines: seq<string>): Option<seq<nat>> {
    if lines == [] then Some([])
    else
      match (ParseNumeral(lines[0], 10), ParseValues(lines[1..]))
      case (Some(v), Some(vs)) => Some([v] + vs)
      case _ => None
  }

  /** Reads back a CSV export: the header, then records "i,value" numbered from 0 in order. */
  function ParseCsv(s: string): Option<seq<nat>> {
    if |s| < |CsvHeader| || s[..|CsvHeader|] != CsvHeader then None
    else
      var body := s[|CsvHeader|..];
      if body == [] then Some([]) else ParseRecords(Split(body, '\n'), 0)
  }

  function ParseRecord(line: string, index: nat): Option<nat> {
    var fields := Split(line, ',');
    if |fields| != 2 || ParseNumeral(fields[0], 10) != Some(index) then None
    else ParseNumeral(fields[1], 10)
  }

  function ParseRecords(lines: seq<string>, index: nat): Option<seq<nat>> {
    if lines == [] then Some([])
    else
      match (ParseRecord(lines[0], index), ParseRecords(lines[1..], index + 1))
      case (Some(v), Some(vs)) => Some([v] + vs)
      case _ => None
  }

  // ---------------------------------------------------------------------------------------
  // split undoes join

  lemma {:induction false} SplitWithoutSeparator(a: string, sep: char)
    requires sep !in a
    ensures Split(a, sep) == [a]
  {
    if a != [] {
      assert sep !in a[1..];
      SplitWithoutSeparator(a[1..], sep);
      assert [a[0]] + a[1..] == a;
    }
  }

  lemma {:induction false} SplitAtSeparator(a: string, b: string, sep: char)
    requires sep !in a
    ensures Split(a + [sep] + b, sep) == [a] + Split(b, sep)
  {
    var s := a + [sep] + b;
    if a == [] {
      assert s[1..] == b;
    } else {
      assert s[1..] == a[1..] + [sep] + b;
      SplitAtSeparator(a[1..], b, sep);
      assert [a[0]] + a[1..] == a;
    }
  }

  /** Splitting a join on a separator that no part contains gives the parts back. */
  lemma {:induction false} SplitJoin(parts: seq<string>, sep: char)
    requires |parts| >= 1
    requires forall i :: 0 <= i < |parts| ==> sep !in parts[i]
    ensures Split(Join(parts, sep), sep) == parts
  {
    if |parts| == 1 {
      SplitWithoutSeparator(parts[0], sep);
    } else {
      SplitJoin(parts[1..], sep);
      SplitAtSeparator(parts[0], Join(parts[1..], sep), sep);
    }
  }

  lemma DecimalHasNoSeparator(v: nat, sep: char)
    requires !IsDigit(sep, 10)
    ensures sep !in Decimal(v)
  {
  }

  // ---------------------------------------------------------------------------------------
  // Round trips

  /** The TXT export has one line per sample, the decimal rendering of that sample. */
  lemma TxtLines(data: seq<nat>)
    requires |data| > 0
    ensures Split(Txt(data), '\n') == Lines(data)
  {
    var lines := Lines(data);
    forall i | 0 <= i < |lines| ensures '\n' !in lines[i] {
      DecimalHasNoSeparator(data[i], '\n');
    }
    SplitJoin(lines, '\n');
  }

  lemma {:induction false} ParseValuesDecimals(data: seq<nat>)
    ensures ParseValues(Lines(data)) == Some(data)
  {
    if data != [] {
      assert Lines(data)[1..] == Lines(data[1..]);
      ParseValuesDecimals(data[1..]);
      ParseDecimal(data[0]);
      assert [data[0]] + data[1..] == data;
    }
  }

  /** Reading the TXT export back gives the samples, in order. The empty list exports as the
      empty text. */
  lemma TxtRoundTrip(data: seq<nat>)
    ensures data == [] <==> Txt(data) == ""
    ensures ParseTxt(Txt(data)) == Some(data)
  {
    if data != [] {
      assert |Decimal(data[0])| > 0;
      if |data| > 1 {
        assert |Txt(data)| >= |Decimal(data[0])|;
      }
      TxtLines(data);
      ParseValuesDecimals(data);
    }
  }

  lemma RecordFields(i: nat, v: nat)
    ensures Split(CsvRecord(i, v), ',') == [Decimal(i), Decimal(v)]
    ensures '\n' !in CsvRecord(i, v)
  {
    DecimalHasNoSeparator(i, ',');
    DecimalHasNoSeparator(v, ',');
    SplitJoin([Decimal(i), Decimal(v)], ',');
    DecimalHasNoSeparator(i, '\n');
    DecimalHasNoSeparator(v, '\n');
  }

  lemma {:induction false} ParseRecordsOfRecords(data: seq<nat>, start: nat)
    ensures ParseRecords(Records(data, start), start) == Some(data)
  {
    if data != [] {
      var lines := Records(data, start);
      assert lines[1..] == Records(data[1..], start + 1);
      ParseRecordsOfRecords(data[1..], start + 1);
      RecordFields(start, data[0]);
      ParseDecimal(start);
      ParseDecimal(data[0]);
      assert [data[0]] + data[1..] == data;
    }
  }

  /** The CSV export is the header line followed by the lines "i,value" for i = 0 .. N - 1. */
  lemma CsvLines(data: seq<nat>)
    ensures Split(Csv(data), '\n') == ["index,value"] + Split(Join(Records(data, 0), '\n'), '\n')
    ensures |data| > 0 ==> Split(Csv(data), '\n') == ["index,value"] + Records(data, 0)
  {
    var body := Join(Records(data, 0), '\n');
    assert Csv(data) == "index,value" + ['\n'] + body;
    SplitAtSeparator("index,value", body, '\n');
    if |data| > 0 {
      forall i | 0 <= i < |data| ensures '\n' !in Records(data, 0)[i] {
        RecordFields(i, data[i]);
      }
      SplitJoin(Records(data, 0), '\n');
    }
  }

  /** Reading the CSV export back gives the samples, in order. */
  lemma CsvRoundTrip(data: seq<nat>)
    ensures ParseCsv(Csv(data)) == Some(data)
  {
    var records := Records(data, 0);
    var body := Join(records, '\n');
    assert Csv(data) == CsvHeader + body;
    assert Csv(data)[..|CsvHeader|] == CsvHeader;
    assert Csv(data)[|CsvHeader|..] == body;
    if data != [] {
      RecordFields(0, data[0]);
      if |data| > 1 {
        assert |body| >= |records[0]|;
      }
      forall i | 0 <= i < |data| ensures '\n' !in records[i] {
        RecordFields(i, data[i]);
      }
      SplitJoin(records, '\n');
      ParseRecordsOfRecords(data, 0);
    }
  }
}

=== FILE: numerals.dfy ===
/** Digit strings: Python's int(s, base) on plain digit strings, str(v) on naturals, and the
    fixed-width bit patterns that the simulator reports as keys of its frequency map. */
module Numerals {
  import opened Outcomes
  import opened Arithmetic

  function Pow(b: nat, e: nat): (r: nat)
    ensures b >= 1 ==> r >= 1
  {
    if e == 0 then 1 else b * Pow(b, e - 1)
  }

  /** 2^n: the number of distinct n-bit outcomes. */
  function Pow2(n: nat): (r: nat)
    ensures r >= 1
  {
    Pow(2, n)
  }

  type Base = b: nat | 2 <= b <= 10 witness 10

  predicate IsDigit(c: char, base: Base) {
    '0' <= c && (c as int - '0' as int) < base
  }

  predicate AllDigits(s: string, base: Base) {
    forall i :: 0 <= i < |s| ==> IsDigit(s[i], base)
  }

  function DigitValue(c: char): int {
    c as int - '0' as int
  }

  function DigitChar(d: nat): (c: char)
    requires d < 10
    ensures DigitValue(c) == d
  {
    ('0' as int + d) as char
  }

  /** The number a digit string denotes, most significant digit first. */
  function Value(s: string, base: Base): nat
    requires AllDigits(s, base)
  {
    if s == [] then 0
    else Value(s[..|s| - 1], base) * base + DigitValue(s[|s| - 1])
  }

  /** int(s, base) on strings made of digits only: a non-empty digit string parses, anything
      else is refused. */
  function ParseNumeral(s: string, base: Base): (r: Option<nat>)
    ensures r.Some? <==> |s| > 0 && AllDigits(s, base)
    ensures r.Some? ==> r.value < Pow(base, |s|)
  {
    if |s| > 0 && AllDigits(s, base) then
      ValueBound(s, base);
      Some(Value(s, base))
    else None
  }

  /** The `width` lowest digits of v in the given base. For v < base^width this is v padded
      with leading zeros to `width` digits, as format(v, '0{width}b') gives for base 2; a
      larger v loses its high digits here, where format would print them all. */
  function FixedWidth(v: nat, base: Base, width: nat): (s: string)
    ensures |s| == width && AllDigits(s, base)
  {
    if width == 0 then []
    else FixedWidth(v / base, base, width - 1) + [DigitChar(v % base)]
  }

  /** str(v) for a natural number: decimal digits without leading zeros. */
  function Decimal(v: nat): (s: string)
    ensures |s| > 0 && AllDigits(s, 10)
    ensures |s| > 1 ==> s[0] != '0'
  {
    if v < 10 then [DigitChar(v)]
    else Decimal(v / 10) + [DigitChar(v % 10)]
  }

  lemma DivModStep(q: nat, d: nat, base: Base)
    requires d < base
    ensures (q * base + d) / base == q && (q * base + d) % base == d
  {
  }

  /** A digit string of length w denotes a number below base^w. */
  lemma {:induction false} ValueBound(s: string, base: Base)
    requires AllDigits(s, base)
    ensures Value(s, base) < Pow(base, |s|)
  {
    if s != [] {
      var p := s[..|s| - 1];
      assert AllDigits(p, base);
      ValueBound(p, base);
      NextDigitBound(Value(p, base), DigitValue(s[|s| - 1]), base, Pow(base, |p|));
    }
  }

  /** A number below p followed by one more digit is below p * base. */
  lemma NextDigitBound(q: nat, d: int, base: Base, p: nat)
    requires q < p && 0 <= d < base
    ensures q * base + d < base * p
  {
    MultiplyMonotone(q + 1, p, base);
  }

  /** Reading back a fixed-width rendering gives the number, when it fits in that width. */
  lemma {:induction false} FixedWidthValue(v: nat, base: Base, width: nat)
    requires v < Pow(base, width)
    ensures Value(FixedWidth(v, base, width), base) == v
    decreases width
  {
    if width > 0 {
      var q, d := v / base, v % base;
      var p := FixedWidth(q, base, width - 1);
      var s := p + [DigitChar(d)];
      assert s == FixedWidth(v, base, width);
      assert s[..width - 1] == p;
      QuotientBound(v, base, width);
      FixedWidthValue(q, base, width - 1);
      assert Value(s, base) == Value(p, base) * base + d;
      DivModIdentity(v, base);
    }
  }

  lemma DivModIdentity(v: nat, base: Base)
    ensures v == (v / base) * base + v % base
  {
  }

  lemma QuotientBound(v: nat, base: Base, width: nat)
    requires width > 0 && v < Pow(base, width)
    ensures v / base < Pow(base, width - 1)
  {
    DivModIdentity(v, base);
  }

  /** Rendering the value of a digit string in its own width gives the string back. */
  lemma {:induction false} ValueFixedWidth(s: string, base: Base)
    requires AllDigits(s, base)
    ensures FixedWidth(Value(s, base), base, |s|) == s
  {
    if s != [] {
      var p := s[..|s| - 1];
      assert AllDigits(p, base);
      var q, d := Value(p, base), DigitValue(s[|s| - 1]);
      assert Value(s, base) == q * base + d;
      DivModStep(q, d, base);
      ValueFixedWidth(p, base);
      assert DigitChar(d) == s[|s| - 1];
      assert FixedWidth(Value(s, base), base, |s|) == FixedWidth(q, base, |p|) + [DigitChar(d)];
      assert p + [s[|s| - 1]] == s;
    }
  }

  /** Reading back str(v) gives v. */
  lemma {:induction false} DecimalValue(v: nat)
    ensures Value(Decimal(v), 10) == v
  {
    if v >= 10 {
      var s := Decimal(v);
      assert s[..|s| - 1] == Decimal(v / 10);
      DecimalValue(v / 10);
    }
  }

  /** int(str(v), 10) == v. */
  lemma ParseDecimal(v: nat)
    ensures ParseNumeral(Decimal(v), 10) == Some(v)
  {
    DecimalValue(v);
  }
}

=== FILE: outcomes.dfy ===
/** Option and Result values, and the ways the sampling-and-validation pipeline fails. */
module Outcomes {

  datatype Option<+T> = None | Some(value: T)

  /** The failures of the pipeline. In the Python program each of them is a raised exception
      or, for the empty chi-square test, a NaN result; here they are values. */
  datatype Error =
    | MalformedPattern(pattern: string)  // int(pattern, 2) raises ValueError
    | EmptySampleSet                     // np.min / np.max of an empty list raise
    | DegenerateTest                     // expected frequency 0: every chi-square term is 0/0
    | NegativeSample                     // np.bincount refuses negative values
    | SampleOutOfRange                   // a value >= 2^n widens the histogram past 2^n bins

  datatype Result<+T> = Ok(value: T) | Err(error: Error)
}

=== FILE: pipeline.dfy ===
/** One generation request end to end: the frequency map the simulator reports is expanded
    into samples (generate_random_numbers), which are then described (calculate_statistics)
    and tested for uniformity (chi_square_test). */
module Pipeline {
  import opened Outcomes
  import opened Numerals
  import opened Arithmetic
  import opened Sampling
  import Statistics
  import Uniformity

  /** With n-bit patterns, bin v of the histogram of the expanded samples holds exactly the
      number of samples the map asks for with value v. */
  lemma ExpandedHistogram(m: FrequencyMap, n: nat)
    requires n >= 1 && PatternsOfWidth(m, n)
    ensures WellFormed(m) && InBins(Expansion(m), Pow2(n))
    ensures forall v :: 0 <= v < Pow2(n) ==> Uniformity.Bincount(Expansion(m), Pow2(n))[v] == CopiesOf(m, v)
  {
    ExpansionRange(m, n);
    Uniformity.BincountCounts(Expansion(m), Pow2(n));
    forall v | 0 <= v < Pow2(n)
      ensures Uniformity.Bincount(Expansion(m), Pow2(n))[v] == CopiesOf(m, v)
    {
      ExpansionOccurrences(m, v);
    }
  }

  /** A map of n-bit patterns yields a statistics report and a chi-square result exactly when
      it asks for at least one sample; the mean then lies in [0, 2^n - 1] and at most 2^n
      distinct values are seen. */
  lemma ExpandedSamplesAreTestable(m: FrequencyMap, n: nat, chi2Cdf: (real, nat) -> real)
    requires n >= 1 && PatternsOfWidth(m, n)
    ensures WellFormed(m)
    ensures Statistics.Describe(Expansion(m), n).Ok? <==> TotalCopies(m) > 0
    ensures Uniformity.ChiSquareTest(Expansion(m), n, chi2Cdf).Ok? <==> TotalCopies(m) > 0
    ensures TotalCopies(m) > 0 ==>
              var report := Statistics.Describe(Expansion(m), n).value;
              0.0 <= report.mean <= (Pow2(n) - 1) as real && report.uniqueValues <= Pow2(n)
  {
    ExpansionRange(m, n);
    ExpansionLength(m);
    var data := Expansion(m);
    if TotalCopies(m) > 0 {
      Statistics.MeanBounds(data, 0, Pow2(n) - 1);
    }
  }

  /** Two samples of each 2-bit value: the perfectly uniform case. */
  const Uniform: FrequencyMap := [("00", 2), ("01", 2), ("10", 2), ("11", 2)]

  /** All eight samples on one value: the maximally skewed case. */
  const Skewed: FrequencyMap := [("00", 8)]

  lemma TwoBitPatterns()
    ensures ParseNumeral("00", 2) == Some(0) && ParseNumeral("01", 2) == Some(1)
    ensures ParseNumeral("10", 2) == Some(2) && ParseNumeral("11", 2) == Some(3)
  {
    assert "00"[..1] == "0" && "01"[..1] == "0" && "10"[..1] == "1" && "11"[..1] == "1";
    assert "0"[..0] == "" && "1"[..0] == "";
    assert AllDigits("00", 2) && AllDigits("01", 2) && AllDigits("10", 2) && AllDigits("11", 2);
  }

  lemma ChiSquareSumOfFour(h: seq<nat>, e: real)
    requires |h| == 4 && e > 0.0
    ensures Uniformity.ChiSquareSum(h, e)
            == Uniformity.Deviation(h[0], e) + Uniformity.Deviation(h[1], e)
             + Uniformity.Deviation(h[2], e) + Uniformity.Deviation(h[3], e)
  {
    var h1, h2, h3 := h[..1], h[..2], h[..3];
    assert h1[..0] == [] && h2[..1] == h1 && h3[..2] == h2 && h[..3] == h3;
    assert Uniformity.ChiSquareSum(h1, e) == Uniformity.Deviation(h[0], e);
    assert Uniformity.ChiSquareSum(h2, e) == Uniformity.ChiSquareSum(h1, e) + Uniformity.Deviation(h[1], e);
    assert Uniformity.ChiSquareSum(h3, e) == Uniformity.ChiSquareSum(h2, e) + Uniformity.Deviation(h[2], e);
  }

  /** The uniform map expands to eight samples, two in each of the four bins. */
  lemma UniformHistogram()
    ensures PatternsOfWidth(Uniform, 2)
    ensures |Expansion(Uniform)| == 8
    ensures InBins(Expansion(Uniform), 4)
    ensures Uniformity.Bincount(Expansion(Uniform), 4) == [2, 2, 2, 2]
  {
    TwoBitPatterns();
    assert PatternsOfWidth(Uniform, 2);
    ExpandedHistogram(Uniform, 2);
    ExpansionLength(Uniform);
    UniformCopies();
  }

  lemma UniformCopies()
    ensures WellFormed(Uniform)
    ensures TotalCopies(Uniform) == 8
    ensures forall v :: 0 <= v < 4 ==> CopiesOf(Uniform, v) == 2
  {
    TwoBitPatterns();
    var m1, m2, m3 := Uniform[..1], Uniform[..2], Uniform[..3];
    assert m1[..0] == [] && m2[..1] == m1 && m3[..2] == m2 && Uniform[..3] == m3;
    assert TotalCopies(m1) == 2 && TotalCopies(m2) == 4 && TotalCopies(m3) == 6;
    forall v | 0 <= v < 4 ensures CopiesOf(Uniform, v) == 2 {
      assert CopiesOf(m1, v) == if v == 0 then 2 else 0;
      assert CopiesOf(m2, v) == if v <= 1 then 2 else 0;
      assert CopiesOf(m3, v) == if v <= 2 then 2 else 0;
    }
  }

  lemma UniformExample(chi2Cdf: (real, nat) -> real)
    ensures Uniformity.ChiSquareTest(Expansion(Uniform), 2, chi2Cdf)
            == Ok(Uniformity.ChiSquareResult(0.0, 3, 1.0 - chi2Cdf(0.0, 3)))
  {
    UniformHistogram();
    ChiSquareSumOfFour([2, 2, 2, 2], 8.0 / 4.0);
  }

  lemma SkewedExample(chi2Cdf: (real, nat) -> real)
    ensures Uniformity.ChiSquareTest(Expansion(Skewed), 2, chi2Cdf)
            == Ok(Uniformity.ChiSquareResult(24.0, 3, 1.0 - chi2Cdf(24.0, 3)))
  {
    TwoBitPatterns();
    assert PatternsOfWidth(Skewed, 2);
    ExpandedHistogram(Skewed, 2);
    assert Skewed[..0] == [];
    ExpansionLength(Skewed);
    var data := Expansion(Skewed);
    var h := Uniformity.Bincount(data, 4);
    assert h == [8, 0, 0, 0];
    assert |data| == 8;
    ChiSquareSumOfFour(h, 8.0 / 4.0);
  }
}

=== FILE: sampling.dfy ===
/** The sample expander of generate_random_numbers: the simulator's frequency map, read in dict
    traversal order, becomes a flat list of decoded samples. The simulator run that produces
    the map is not part of this model; the map is an input. */
module Sampling {
  import opened Outcomes
  import opened Numerals

  /** The (bit pattern, count) pairs of counts.items(), in traversal order. */
  type FrequencyMap = seq<(string, int)>

  /** How many elements [v] * count has: Python repeats a list zero times for a negative count. */
  function Copies(count: int): nat {
    if count < 0 then 0 else count
  }

  /** [v] * count. */
  function Repeat(v: nat, count: int): (r: seq<nat>)
    ensures |r| == Copies(count)
    ensures forall j :: 0 <= j < |r| ==> r[j] == v
  {
    seq(Copies(count), _ => v)
  }

  /** Every key of the map is accepted by int(key, 2). */
  predicate WellFormed(m: FrequencyMap) {
    forall i :: 0 <= i < |m| ==> ParseNumeral(m[i].0, 2).Some?
  }

  /** Every key is an n-digit binary pattern, as the simulator reports for an n-qubit circuit. */
  predicate PatternsOfWidth(m: FrequencyMap, n: nat) {
    forall i :: 0 <= i < |m| ==> |m[i].0| == n && AllDigits(m[i].0, 2)
  }

  function Decoded(pattern: string): nat
    requires ParseNumeral(pattern, 2).Some?
  {
    ParseNumeral(pattern, 2).value
  }

  /** The list the loop builds: each pair's copies appended after those of the pairs before it. */
  function Expansion(m: FrequencyMap): seq<nat>
    requires WellFormed(m)
  {
    if m == [] then []
    else
      var last := m[|m| - 1];
      Expansion(m[..|m| - 1]) + Repeat(Decoded(last.0), last.1)
  }

  /** The number of samples the map asks for. */
  function TotalCopies(m: FrequencyMap): nat {
    if m == [] then 0 else TotalCopies(m[..|m| - 1]) + Copies(m[|m| - 1].1)
  }

  /** The sum of the counts as the simulator reports them (the number of shots). */
  function Shots(m: FrequencyMap): int {
    if m == [] then 0 else Shots(m[..|m| - 1]) + m[|m| - 1].1
  }

  /** How many samples the map asks for with value v. */
  function CopiesOf(m: FrequencyMap, v: nat): nat
    requires WellFormed(m)
  {
    if m == [] then 0
    else
      var last := m[|m| - 1];
      CopiesOf(m[..|m| - 1], v) + (if Decoded(last.0) == v then Copies(last.1) else 0)
  }

  /** The loop of generate_random_numbers over counts.items(). It stops at the first key that
      int(key, 2) refuses; otherwise it returns the expansion of the whole map. */
  method Expand(m: FrequencyMap) returns (r: Result<seq<nat>>)
    ensures r.Ok? <==> WellFormed(m)
    ensures r.Ok? ==> r.value == Expansion(m)
    ensures r.Err? ==> exists i :: 0 <= i < |m| && WellFormed(m[..i])
                                && ParseNumeral(m[i].0, 2).None? && r.error == MalformedPattern(m[i].0)
  {
    var samples: seq<nat> := [];
    var i := 0;
    while i < |m|
      invariant 0 <= i <= |m|
      invariant WellFormed(m[..i])
      invariant samples == Expansion(m[..i])
    {
      var (pattern, count) := m[i];
      match ParseNumeral(pattern, 2)
      case None =>
        return Err(MalformedPattern(pattern));
      case Some(v) =>
        assert m[..i + 1][..i] == m[..i];
        samples := samples + Repeat(v, count);
        i := i + 1;
    }
    assert m[..i] == m;
    return Ok(samples);
  }

  /** Expanding a map split in two is expanding each part, in order. */
  lemma {:induction false} ExpansionAppend(a: FrequencyMap, b: FrequencyMap)
    requires WellFormed(a) && WellFormed(b)
    ensures WellFormed(a + b)
    ensures Expansion(a + b) == Expansion(a) + Expansion(b)
    ensures TotalCopies(a + b) == TotalCopies(a) + TotalCopies(b)
  {
    if b == [] {
      assert a + b == a;
    } else {
      var b' := b[..|b| - 1];
      assert (a + b)[..|a + b| - 1] == a + b';
      ExpansionAppend(a, b');
    }
  }

  /** The expanded list has one element per requested sample; with the non-negative counts the
      simulator reports, that is the number of shots. */
  lemma {:induction false} ExpansionLength(m: FrequencyMap)
    requires WellFormed(m)
    ensures |Expansion(m)| == TotalCopies(m)
    ensures (forall i :: 0 <= i < |m| ==> m[i].1 >= 0) ==> TotalCopies(m) == Shots(m)
  {
    if m != [] {
      ExpansionLength(m[..|m| - 1]);
    }
  }

  /** Pair i contributes exactly its count of copies of int(pattern, 2), contiguously, right
      after the copies of the pairs before it. */
  lemma ExpansionBlock(m: FrequencyMap, i: nat)
    requires WellFormed(m) && i < |m|
    ensures TotalCopies(m[..i]) + Copies(m[i].1) <= |Expansion(m)|
    ensures Expansion(m)[TotalCopies(m[..i])..TotalCopies(m[..i]) + Copies(m[i].1)]
            == Repeat(Decoded(m[i].0), m[i].1)
  {
    var before, here, after := m[..i], [m[i]], m[i + 1..];
    assert m == before + here + after;
    ExpansionAppend(before, here);
    ExpansionAppend(before + here, after);
    assert here[..0] == [];
    assert Expansion(here) == Repeat(Decoded(m[i].0), m[i].1);
    ExpansionLength(before);
    ExpansionLength(m);
  }

  /** With n-digit binary keys every sample lies in [0, 2^n - 1]. */
  lemma {:induction false} ExpansionRange(m: FrequencyMap, n: nat)
    requires n >= 1 && PatternsOfWidth(m, n)
    ensures WellFormed(m)
    ensures forall j :: 0 <= j < |Expansion(m)| ==> Expansion(m)[j] < Pow2(n)
  {
    if m != [] {
      ExpansionRange(m[..|m| - 1], n);
    }
  }

  /** Value v occurs in the expansion as many times as the map asks for it. */
  lemma {:induction false} ExpansionOccurrences(m: FrequencyMap, v: nat)
    requires WellFormed(m)
    ensures multiset(Expansion(m))[v] == CopiesOf(m, v)
  {
    if m != [] {
      var last := m[|m| - 1];
      ExpansionOccurrences(m[..|m| - 1], v);
      RepeatOccurrences(Decoded(last.0), last.1, v);
    }
  }

  lemma {:induction false} RepeatOccurrences(x: nat, count: int, v: nat)
    ensures multiset(Repeat(x, count))[v] == if x == v then Copies(count) else 0
    decreases Copies(count)
  {
    if Copies(count) > 0 {
      var r := Repeat(x, count);
      assert r == Repeat(x, count - 1) + [x];
      RepeatOccurrences(x, count - 1, v);
    }
  }
}

=== FILE: statistics.dfy ===
/** calculate_statistics: descriptive statistics of a sample list. Floating-point arithmetic is
    modelled exactly with reals; the standard deviation is modelled by its square, the
    population variance. */
module Statistics {
  import opened Outcomes
  import opened Numerals
  import opened Arithmetic

  /** np.min */
  function Min(data: seq<int>): (m: int)
    requires |data| > 0
    ensures m in data
    ensures forall i :: 0 <= i < |data| ==> m <= data[i]
  {
    if |data| == 1 then data[0]
    else
      var rest := Min(data[..|data| - 1]);
      if data[|data| - 1] < rest then data[|data| - 1] else rest
  }

  /** np.max */
  function Max(data: seq<int>): (m: int)
    requires |data| > 0
    ensures m in data
    ensures forall i :: 0 <= i < |data| ==> data[i] <= m
  {
    if |data| == 1 then data[0]
    else
      var rest := Max(data[..|data| - 1]);
      if data[|data| - 1] > rest then data[|data| - 1] else rest
  }

  /** np.mean */
  function Mean(data: seq<int>): real
    requires |data| > 0
  {
    Sum(data) as real / |data| as real
  }

  /** The sum of the squared distances of the samples from c. */
  function SquaredDeviations(data: seq<int>, c: real): real {
    if data == [] then 0.0
    else SquaredDeviations(data[..|data| - 1], c) + Square(data[|data| - 1] as real - c)
  }

  /** The square of np.std: the population variance, divided by N. */
  function Variance(data: seq<int>): real
    requires |data| > 0
  {
    SquaredDeviations(data, Mean(data)) / |data| as real
  }

  /** set(data) */
  function Distinct(data: seq<int>): set<int> {
    set x | x in data
  }

  /** The mean of the uniform distribution over the n-bit values: (2^n - 1) / 2. */
  function TheoreticalMean(n: nat): real {
    (Pow2(n) - 1) as real / 2.0
  }

  /** The dictionary calculate_statistics returns; std_dev is given as its square. */
  datatype Report = Report(
    mean: real,
    theoreticalMean: real,
    variance: real,
    min: int,
    max: int,
    uniqueValues: nat,
    totalSamples: nat)

  /** calculate_statistics(data, n). An empty list makes np.min raise, so there is no report. */
  function Describe(data: seq<int>, n: nat): (r: Result<Report>)
    ensures r.Err? <==> data == []
    ensures r.Err? ==> r.error == EmptySampleSet
    ensures r.Ok? ==> r.value.totalSamples == |data|
    ensures r.Ok? ==> r.value.min in data && r.value.max in data
    ensures r.Ok? ==> forall i :: 0 <= i < |data| ==> r.value.min <= data[i] <= r.value.max
    ensures r.Ok? ==> r.value.min as real <= r.value.mean <= r.value.max as real
    ensures r.Ok? ==> r.value.variance >= 0.0
    ensures r.Ok? ==> r.value.uniqueValues <= r.value.totalSamples
    ensures r.Ok? && InBins(data, Pow2(n)) ==> r.value.uniqueValues <= Pow2(n)
  {
    if data == [] then Err(EmptySampleSet)
    else
      MeanBetweenMinMax(data);
      VarianceNonNegative(data);
      UniqueValuesAtMostLength(data);
      UniqueValuesAtMostBins(data, Pow2(n));
      Ok(Report(Mean(data), TheoreticalMean(n), Variance(data), Min(data), Max(data),
                |Distinct(data)|, |data|))
  }

  /** N samples between lo and hi sum to between N * lo and N * hi. */
  lemma {:induction false} SumBounds(data: seq<int>, lo: int, hi: int)
    requires forall i :: 0 <= i < |data| ==> lo <= data[i] <= hi
    ensures |data| * lo <= Sum(data) <= |data| * hi
  {
    if data != [] {
      SumBounds(data[..|data| - 1], lo, hi);
      assert |data| * lo == (|data| - 1) * lo + lo;
      assert |data| * hi == (|data| - 1) * hi + hi;
    }
  }

  /** The mean lies between the smallest and the largest sample. */
  lemma MeanBetweenMinMax(data: seq<int>)
    requires |data| > 0
    ensures Min(data) as real <= Mean(data) <= Max(data) as real
  {
    MeanBounds(data, Min(data), Max(data));
  }

  /** N samples between lo and hi have a mean between lo and hi. */
  lemma MeanBounds(data: seq<int>, lo: int, hi: int)
    requires |data| > 0
    requires forall i :: 0 <= i < |data| ==> lo <= data[i] <= hi
    ensures lo as real <= Mean(data) <= hi as real
  {
    var n, s := |data|, Sum(data);
    SumBounds(data, lo, hi);
    ProductAsReal(n, lo);
    ProductAsReal(n, hi);
    QuotientBetween(s as real, n as real, lo as real, hi as real);
  }

  /** The squared deviations from S / N are the integer sum of (N * x - S)^2 over N^2. */
  lemma {:induction false} SquaredDeviationsScaled(data: seq<int>, s: int, n: nat)
    requires n > 0
    ensures SquaredDeviations(data, s as real / n as real)
            == ScaledSquares(data, s, n) as real / (n * n) as real
  {
    if data != [] {
      var p, x := data[..|data| - 1], data[|data| - 1];
      var c, nn := s as real / n as real, (n * n) as real;
      var d := n * x - s;
      SquaredDeviationsScaled(p, s, n);
      SquaredDistanceScaled(x, s, n);
      assert nn > 0.0;
      AddFractions(ScaledSquares(p, s, n), IntSquare(d), nn);
    }
  }

  lemma VarianceScaled(data: seq<int>)
    requires |data| > 0
    ensures var n := |data|;
            Variance(data) == ScaledSquares(data, Sum(data), n) as real / (n * n * n) as real
  {
    var n, s := |data|, Sum(data);
    var x := ScaledSquares(data, s, n) as real;
    var nn, nr := (n * n) as real, n as real;
    SquaredDeviationsScaled(data, s, n);
    assert Mean(data) == s as real / nr;
    assert SquaredDeviations(data, Mean(data)) == x / nn;
    assert Variance(data) == x / nn / nr;
    ProductAsReal(n * n, n);
    assert (n * n * n) as real == nn * nr;
    DivideTwice(x, nn, nr);
  }

  /** The variance is never negative, so the standard deviation is defined. */
  lemma VarianceNonNegative(data: seq<int>)
    requires |data| > 0
    ensures Variance(data) >= 0.0
  {
    VarianceScaled(data);
    ScaledSquaresZero(data, Sum(data), |data|);
  }

  /** The variance (so the standard deviation) is zero exactly when all samples are equal. */
  lemma VarianceZeroIffConstant(data: seq<int>)
    requires |data| > 0
    ensures Variance(data) == 0.0 <==> forall i :: 0 <= i < |data| ==> data[i] == data[0]
  {
    var n, s := |data|, Sum(data);
    VarianceScaled(data);
    ScaledSquaresZero(data, s, n);
    if forall i :: 0 <= i < |data| ==> data[i] == data[0] {
      SumBounds(data, data[0], data[0]);
    }
    if Variance(data) == 0.0 {
      QuotientZero(ScaledSquares(data, s, n), n * n * n);
      forall i | 0 <= i < |data| ensures data[i] == data[0] {
        CancelFactor(n, data[i], data[0]);
      }
    }
  }

  /** There are no more distinct values than samples. */
  lemma {:induction false} UniqueValuesAtMostLength(data: seq<int>)
    ensures |Distinct(data)| <= |data|
  {
    if data != [] {
      var p := data[..|data| - 1];
      UniqueValuesAtMostLength(p);
      assert Distinct(data) == Distinct(p) + {data[|data| - 1]};
    }
  }

  /** The values 0 .. k - 1. */
  function Below(k: nat): (r: set<int>)
    ensures forall x :: x in r <==> 0 <= x < k
  {
    if k == 0 then {} else Below(k - 1) + {k - 1}
  }

  lemma {:induction false} BelowSize(k: nat)
    ensures |Below(k)| == k
  {
    if k > 0 {
      BelowSize(k - 1);
    }
  }

  lemma SubsetSize(a: set<int>, b: set<int>)
    requires a <= b
    ensures |a| <= |b|
  {
    assert b == a + (b - a);
    assert a * (b - a) == {};
  }

  /** With every sample in [0, k), there are at most k distinct values. */
  lemma UniqueValuesAtMostBins(data: seq<int>, k: nat)
    ensures InBins(data, k) ==> |Distinct(data)| <= k
  {
    if InBins(data, k) {
      assert Distinct(data) <= Below(k);
      SubsetSize(Distinct(data), Below(k));
      BelowSize(k);
    }
  }

  /** Each of 0 .. k - 1 once. */
  function Range(k: nat): (r: seq<int>)
    ensures |r| == k
  {
    seq(k, i => i)
  }

  lemma {:induction false} RangeSum(k: nat)
    ensures 2 * Sum(Range(k)) == k * (k - 1)
  {
    if k > 0 {
      assert Range(k)[..k - 1] == Range(k - 1);
      RangeSum(k - 1);
    }
  }

  /** The theoretical mean is the mean of the n-bit values each taken once, the mean a perfectly
      uniform sample would have. */
  lemma TheoreticalMeanIsUniformMean(n: nat)
    ensures Mean(Range(Pow2(n))) == TheoreticalMean(n)
  {
    var k := Pow2(n);
    RangeSum(k);
    assert Sum(Range(k)) as real * 2.0 == k as real * (k - 1) as real;
  }

  // ---------------------------------------------------------------------------------------
  // The report depends on the samples, not on their order

  /** The sum of f over the samples. */
  function SumOf(data: seq<int>, f: int -> int): int {
    if data == [] then 0 else SumOf(data[..|data| - 1], f) + f(data[|data| - 1])
  }

  lemma {:induction false} SumOfAppend(u: seq<int>, v: seq<int>, f: int -> int)
    ensures SumOf(u + v, f) == SumOf(u, f) + SumOf(v, f)
    decreases |v|
  {
    if v == [] {
      assert u + v == u;
    } else {
      var v', y := v[..|v| - 1], v[|v| - 1];
      assert u + v == (u + v') + [y];
      assert (u + v)[..|u + v| - 1] == u + v';
      SumOfAppend(u, v', f);
    }
  }

  /** Taking one sample out of the middle of a list takes its term out of the sum. */
  lemma SumOfMiddle(left: seq<int>, x: int, right: seq<int>, f: int -> int)
    ensures SumOf(left + [x] + right, f) == SumOf(left + right, f) + f(x)
  {
    SumOfAppend(left, right, f);
    SumOfAppend(left + [x], right, f);
    SumOfAppend(left, [x], f);
    assert [x][..0] == [];
  }

  /** Taking one sample out of the middle of a list takes it out of the multiset. */
  lemma MultisetMiddle(left: seq<int>, x: int, right: seq<int>)
    ensures multiset(left + [x] + right) == multiset(left + right) + multiset{x}
  {
    assert left + [x] + right == left + ([x] + right);
  }

  /** A sample that occurs in b splits b around one of its occurrences. */
  lemma Occurrence(b: seq<int>, x: int) returns (left: seq<int>, right: seq<int>)
    requires x in multiset(b)
    ensures b == left + [x] + right
  {
    var j :| 0 <= j < |b| && b[j] == x;
    left, right := b[..j], b[j + 1..];
  }

  lemma MultisetCancel(p: multiset<int>, q: multiset<int>, x: int)
    requires p + multiset{x} == q + multiset{x}
    ensures p == q
  {
    assert p == (p + multiset{x}) - multiset{x};
  }

  /** Rearranging the samples does not change the sum of f over them. */
  lemma {:induction false} SumOfPermutation(a: seq<int>, b: seq<int>, f: int -> int)
    requires multiset(a) == multiset(b)
    ensures SumOf(a, f) == SumOf(b, f)
    decreases |a|
  {
    if a == [] {
      assert |b| == |multiset(b)| == 0;
    } else {
      var a', x := a[..|a| - 1], a[|a| - 1];
      assert multiset(a) == multiset(a') + multiset{x} by {
        assert a == a' + [x];
      }
      var left, right := Occurrence(b, x);
      MultisetMiddle(left, x, right);
      MultisetCancel(multiset(a'), multiset(left + right), x);
      SumOfPermutation(a', left + right, f);
      SumOfMiddle(left, x, right, f);
    }
  }

  function Identity(x: int): int {
    x
  }

  lemma {:induction false} SumIsSumOf(data: seq<int>)
    ensures Sum(data) == SumOf(data, Identity)
  {
    if data != [] {
      SumIsSumOf(data[..|data| - 1]);
    }
  }

  /** The scaled squared deviation of one sample from the mean s / n. */
  function ScaledDeviation(s: int, n: int): int -> int {
    x => IntSquare(n * x - s)
  }

  lemma {:induction false} ScaledDeviationsIsSumOf(data: seq<int>, s: int, n: int)
    ensures ScaledSquares(data, s, n) == SumOf(data, ScaledDeviation(s, n))
  {
    if data != [] {
      ScaledDeviationsIsSumOf(data[..|data| - 1], s, n);
    }
  }

  /** calculate_statistics gives the same report for any order of the same samples. */
  lemma DescribeOrderInvariant(a: seq<int>, b: seq<int>, n: nat)
    requires multiset(a) == multiset(b)
    ensures Describe(a, n) == Describe(b, n)
  {
    assert |a| == |multiset(a)| == |b|;
    assert forall x :: x in a <==> x in b by {
      forall x ensures x in a <==> x in b {
        assert x in a <==> x in multiset(a);
        assert x in b <==> x in multiset(b);
      }
    }
    if a != [] {
      SumIsSumOf(a);
      SumIsSumOf(b);
      SumOfPermutation(a, b, Identity);
      ScaledDeviationsIsSumOf(a, Sum(a), |a|);
      ScaledDeviationsIsSumOf(b, Sum(a), |a|);
      SumOfPermutation(a, b, ScaledDeviation(Sum(a), |a|));
      assert Mean(a) == Mean(b);
      VarianceScaled(a);
      VarianceScaled(b);
      assert forall x :: x in Distinct(a) <==> x in Distinct(b);
      assert Distinct(a) == Distinct(b);
      assert Min(a) == Min(b) by {
        assert Min(a) in b && Min(b) in a;
      }
      assert Max(a) == Max(b) by {
        assert Max(a) in b && Max(b) in a;
      }
    }
  }
}

=== FILE: uniformity.dfy ===
/** chi_square_test: the per-value histogram (np.bincount with minlength 2^n) and Pearson's
    chi-square statistic against the uniform distribution over the 2^n values. Floating-point
    arithmetic is modelled exactly with reals. The chi-square distribution function is not
    modelled: it is a parameter of the test. */
module Uniformity {
  import opened Outcomes
  import opened Numerals
  import opened Arithmetic

  predicate NonNegative(data: seq<int>) {
    forall i :: 0 <= i < |data| ==> data[i] >= 0
  }

  /** The number of bins np.bincount(data, minlength=k) returns for non-negative samples: the
      least l >= k that holds every sample, so k, or one more than the largest sample. */
  function BincountLength(data: seq<int>, k: nat): (l: nat)
    requires NonNegative(data)
    ensures k <= l && InBins(data, l)
    ensures l == k || exists i :: 0 <= i < |data| && data[i] == l - 1
    ensures l == k <==> InBins(data, k)
  {
    if data == [] then k
    else
      var x := data[|data| - 1];
      var l := BincountLength(data[..|data| - 1], k);
      if x < l then l else x + 1
  }

  /** np.bincount(data, minlength=k) for samples in [0, k): one counter per bin, each sample
      adding one to its own bin. */
  function Bincount(data: seq<int>, k: nat): (h: seq<nat>)
    requires InBins(data, k)
    ensures |h| == k
  {
    if data == [] then seq(k, _ => 0)
    else
      var x := data[|data| - 1];
      var h := Bincount(data[..|data| - 1], k);
      h[x := h[x] + 1]
  }

  function SumOfSquares(h: seq<nat>): nat {
    if h == [] then 0 else SumOfSquares(h[..|h| - 1]) + h[|h| - 1] * h[|h| - 1]
  }

  /** One term of the statistic: (O - E)^2 / E. */
  function Deviation(o: nat, e: real): real
    requires e > 0.0
  {
    Square(o as real - e) / e
  }

  /** np.sum((observed - expected)**2 / expected) with the same expected value in every bin. */
  function ChiSquareSum(observed: seq<nat>, e: real): real
    requires e > 0.0
  {
    if observed == [] then 0.0
    else ChiSquareSum(observed[..|observed| - 1], e) + Deviation(observed[|observed| - 1], e)
  }

  datatype ChiSquareResult = ChiSquareResult(statistic: real, degreesOfFreedom: nat, pValue: real)

  /** chi_square_test(data, n), given the chi-square cumulative distribution function, with
      K = 2^n expected frequencies N / K.
      - An empty list gives expected frequency 0 and a 0/0 statistic.
      - A negative sample makes np.bincount raise.
      - A sample of K or more makes the histogram longer than K. With K >= 2 the subtraction of
        the K expected frequencies then raises; with K = 1 (n = 0) the single expected frequency
        is broadcast over every bin of the histogram. */
  function ChiSquareTest(data: seq<int>, n: nat, chi2Cdf: (real, nat) -> real): (r: Result<ChiSquareResult>)
    ensures r.Ok? <==> |data| > 0 && NonNegative(data) && (InBins(data, Pow2(n)) || Pow2(n) == 1)
    ensures data == [] ==> r == Err(DegenerateTest)
    ensures data != [] && !NonNegative(data) ==> r == Err(NegativeSample)
    ensures NonNegative(data) && !InBins(data, Pow2(n)) && Pow2(n) >= 2 ==> r == Err(SampleOutOfRange)
    ensures r.Ok? ==> r.value.statistic >= 0.0 && r.value.degreesOfFreedom == Pow2(n) - 1
    ensures r.Ok? ==> r.value.pValue == 1.0 - chi2Cdf(r.value.statistic, r.value.degreesOfFreedom)
  {
    var k := Pow2(n);
    if data == [] then Err(DegenerateTest)
    else if !NonNegative(data) then Err(NegativeSample)
    else
      var observed := Bincount(data, BincountLength(data, k));
      if |observed| != k && k != 1 then Err(SampleOutOfRange)
      else
        var statistic := ChiSquareSum(observed, |data| as real / k as real);
        ChiSquareNonNegative(observed, |data|, k);
        Ok(ChiSquareResult(statistic, k - 1, 1.0 - chi2Cdf(statistic, k - 1)))
  }

  // ---------------------------------------------------------------------------------------
  // The histogram

  /** Bin v holds the number of occurrences of v. */
  lemma {:induction false} BincountCounts(data: seq<int>, k: nat)
    requires InBins(data, k)
    ensures forall v :: 0 <= v < k ==> Bincount(data, k)[v] == multiset(data)[v]
  {
    if data != [] {
      var p, x := data[..|data| - 1], data[|data| - 1];
      assert data == p + [x];
      BincountCounts(p, k);
    }
  }

  lemma {:induction false} TotalIncrement(h: seq<nat>, i: nat)
    requires i < |h|
    ensures Sum(h[i := h[i] + 1]) == Sum(h) + 1
  {
    var g := h[i := h[i] + 1];
    if i < |h| - 1 {
      assert g[..|g| - 1] == h[..|h| - 1][i := h[i] + 1];
      TotalIncrement(h[..|h| - 1], i);
    } else {
      assert g[..|g| - 1] == h[..|h| - 1];
    }
  }

  lemma {:induction false} TotalZeros(k: nat)
    ensures Sum(seq(k, _ => 0)) == 0
  {
    if k > 0 {
      assert seq(k, _ => 0)[..k - 1] == seq(k - 1, _ => 0);
      TotalZeros(k - 1);
    }
  }

  /** The bins add up to the number of samples. */
  lemma {:induction false} BincountTotal(data: seq<int>, k: nat)
    requires InBins(data, k)
    ensures Sum(Bincount(data, k)) == |data|
  {
    if data == [] {
      TotalZeros(k);
    } else {
      var p, x := data[..|data| - 1], data[|data| - 1];
      BincountTotal(p, k);
      TotalIncrement(Bincount(p, k), x);
    }
  }

  /** The histogram does not depend on the order of the samples. */
  lemma BincountPermutation(a: seq<int>, b: seq<int>, k: nat)
    requires InBins(a, k) && multiset(a) == multiset(b)
    ensures InBins(b, k)
    ensures Bincount(a, k) == Bincount(b, k)
  {
    SameBins(a, b, k);
    BincountCounts(a, k);
    BincountCounts(b, k);
  }

  // ---------------------------------------------------------------------------------------
  // The statistic, through its integer form: with E = N / K,
  // (O - E)^2 / E == (K * O - N)^2 / (K * N).

  lemma DeviationScaled(o: nat, n: nat, k: nat)
    requires n > 0 && k > 0
    ensures Deviation(o, n as real / k as real) == IntSquare(k * o - n) as real / (k * n) as real
  {
    var d := k * o - n;
    assert o as real - n as real / k as real == d as real / k as real;
    ProductAsReal(d, d);
    ProductAsReal(k, n);
  }

  lemma {:induction false} ChiSquareScaled(observed: seq<nat>, n: nat, k: nat)
    requires n > 0 && k > 0
    ensures ChiSquareSum(observed, n as real / k as real)
            == ScaledSquares(observed, n, k) as real / (k * n) as real
  {
    if observed != [] {
      var p, o := observed[..|observed| - 1], observed[|observed| - 1];
      ChiSquareScaled(p, n, k);
      DeviationScaled(o, n, k);
      assert (k * n) as real > 0.0;
      AddFractions(ScaledSquares(p, n, k), IntSquare(k * o - n), (k * n) as real);
    }
  }

  /** With N > 0 samples over K bins the statistic is never negative. */
  lemma ChiSquareNonNegative(observed: seq<nat>, n: nat, k: nat)
    requires n > 0 && k > 0
    ensures ChiSquareSum(observed, n as real / k as real) >= 0.0
  {
    ChiSquareScaled(observed, n, k);
    ScaledSquaresZero(observed, n, k);
  }

  /** The statistic is zero exactly when every bin holds the expected N / K samples. */
  lemma ChiSquareZeroIff(observed: seq<nat>, n: nat, k: nat)
    requires n > 0 && k > 0
    ensures ChiSquareSum(observed, n as real / k as real) == 0.0
            <==> forall i :: 0 <= i < |observed| ==> observed[i] as real == n as real / k as real
  {
    ChiSquareScaled(observed, n, k);
    ScaledSquaresZero(observed, n, k);
    forall i | 0 <= i < |observed|
      ensures k * observed[i] == n <==> observed[i] as real == n as real / k as real
    {
      QuotientEquality(observed[i], n, k);
    }
  }

  lemma {:induction false} ScaledChiSquareExpanded(observed: seq<nat>, n: int, k: int)
    ensures ScaledSquares(observed, n, k)
            == (k * k) * SumOfSquares(observed) - (2 * k * n) * Sum(observed) + (n * n) * |observed|
  {
    if observed != [] {
      var p, o := observed[..|observed| - 1], observed[|observed| - 1];
      ScaledChiSquareExpanded(p, n, k);
      var a, b, c := k * k, 2 * k * n, n * n;
      SquareExpand(k, o, n);
      Distribute(a, SumOfSquares(p), o * o);
      Distribute(b, Sum(p), o);
      Distribute(c, |p|, 1);
    }
  }

  lemma SquareExpand(k: int, o: int, n: int)
    ensures IntSquare(k * o - n) == (k * k) * (o * o) - (2 * k * n) * o + n * n
  {
  }

  /** The short form of the statistic: when L bins hold N samples in all and E = N / K, it is
      sum(O^2) / E - 2 * N + L * E, that is K * sum(O^2) / N - 2 * N + L * N / K. */
  lemma ChiSquareShortForm(observed: seq<nat>, n: nat, k: nat)
    requires n > 0 && k > 0 && Sum(observed) == n
    ensures ChiSquareSum(observed, n as real / k as real)
            == (k * SumOfSquares(observed)) as real / n as real - 2.0 * n as real
             + (|observed| * n) as real / k as real
  {
    var l, s := |observed|, SumOfSquares(observed);
    ChiSquareScaled(observed, n, k);
    ScaledChiSquareExpanded(observed, n, k);
    ShortFormArithmetic(s, n, k, l);
  }

  /** The textbook short form: over the K bins themselves the statistic is sum(O^2) / E - N,
      that is K * sum(O^2) / N - N. */
  lemma ChiSquareShortFormOverBins(observed: seq<nat>, n: nat)
    requires n > 0 && |observed| > 0 && Sum(observed) == n
    ensures ChiSquareSum(observed, n as real / |observed| as real)
            == (|observed| * SumOfSquares(observed)) as real / n as real - n as real
  {
    var k := |observed|;
    ChiSquareShortForm(observed, n, k);
    CancelQuotient(n, k);
    assert k * n == n * k;
  }

  lemma ShortFormArithmetic(s: nat, n: nat, k: nat, l: nat)
    requires n > 0 && k > 0
    ensures ((k * k) * s - (2 * k * n) * n + (n * n) * l) as real / (k * n) as real
            == (k * s) as real / n as real - 2.0 * n as real + (l * n) as real / k as real
  {
    var kr, nr, sr, lr := k as real, n as real, s as real, l as real;
    assert ((k * k) * s - (2 * k * n) * n + (n * n) * l) as real
           == kr * kr * sr - 2.0 * kr * nr * nr + nr * nr * lr;
    assert (k * n) as real == kr * nr;
    assert (k * s) as real == kr * sr;
    assert (l * n) as real == lr * nr;
    calc {
      (kr * kr * sr - 2.0 * kr * nr * nr + nr * nr * lr) / (kr * nr);
      kr * sr / nr - 2.0 * nr + lr * nr / kr;
    }
  }

  // ---------------------------------------------------------------------------------------
  // The test, stated on the samples

  /** The statistic is zero exactly when every bin of the histogram holds N / 2^n samples; for
      samples below 2^n the bins are the 2^n values. */
  lemma ChiSquareTestZeroIff(data: seq<int>, n: nat, chi2Cdf: (real, nat) -> real)
    requires ChiSquareTest(data, n, chi2Cdf).Ok?
    ensures NonNegative(data)
    ensures InBins(data, Pow2(n)) ==> BincountLength(data, Pow2(n)) == Pow2(n)
    ensures ChiSquareTest(data, n, chi2Cdf).value.statistic == 0.0
            <==> forall v :: 0 <= v < BincountLength(data, Pow2(n))
                   ==> multiset(data)[v] as real == |data| as real / Pow2(n) as real
  {
    var k := Pow2(n);
    var l := BincountLength(data, k);
    ChiSquareZeroIff(Bincount(data, l), |data|, k);
    BincountCounts(data, l);
  }

  /** What a successful test computed: the statistic over the histogram of the samples. */
  lemma TestStatistic(data: seq<int>, n: nat, chi2Cdf: (real, nat) -> real)
    requires ChiSquareTest(data, n, chi2Cdf).Ok?
    ensures |data| > 0 && NonNegative(data)
    ensures ChiSquareTest(data, n, chi2Cdf).value.statistic
            == ChiSquareSum(Bincount(data, BincountLength(data, Pow2(n))), |data| as real / Pow2(n) as real)
  {
  }

  /** The statistic as sum(O^2) / E - 2 * N + L * E over the L bins of the histogram, with
      E = N / 2^n. */
  lemma ChiSquareTestShortForm(data: seq<int>, n: nat, chi2Cdf: (real, nat) -> real)
    requires ChiSquareTest(data, n, chi2Cdf).Ok?
    ensures NonNegative(data)
    ensures var l := BincountLength(data, Pow2(n));
            ChiSquareTest(data, n, chi2Cdf).value.statistic
            == (Pow2(n) * SumOfSquares(Bincount(data, l))) as real / |data| as real - 2.0 * |data| as real
             + (l * |data|) as real / Pow2(n) as real
  {
    TestStatistic(data, n, chi2Cdf);
    var l := BincountLength(data, Pow2(n));
    BincountTotal(data, l);
    ChiSquareShortForm(Bincount(data, l), |data|, Pow2(n));
  }

  /** For samples below 2^n the statistic is the textbook sum(O^2) / E - N over the 2^n bins. */
  lemma ChiSquareTestShortFormInRange(data: seq<int>, n: nat, chi2Cdf: (real, nat) -> real)
    requires ChiSquareTest(data, n, chi2Cdf).Ok? && InBins(data, Pow2(n))
    ensures ChiSquareTest(data, n, chi2Cdf).value.statistic
            == (Pow2(n) * SumOfSquares(Bincount(data, Pow2(n)))) as real / |data| as real - |data| as real
  {
    TestStatistic(data, n, chi2Cdf);
    BincountTotal(data, Pow2(n));
    ChiSquareShortFormOverBins(Bincount(data, Pow2(n)), |data|);
  }

  /** The test does not depend on the order of the samples. */
  lemma ChiSquareTestOrderInvariant(a: seq<int>, b: seq<int>, n: nat, chi2Cdf: (real, nat) -> real)
    requires multiset(a) == multiset(b)
    ensures ChiSquareTest(a, n, chi2Cdf) == ChiSquareTest(b, n, chi2Cdf)
  {
    var k := Pow2(n);
    assert |a| == |multiset(a)| == |b|;
    assert NonNegative(a) <==> NonNegative(b) by {
      SameNegatives(a, b);
      SameNegatives(b, a);
    }
    if |a| > 0 && NonNegative(a) {
      BincountLengthPermutation(a, b, k);
      BincountPermutation(a, b, BincountLength(a, k));
    }
  }

  /** A rearrangement of the samples has the same number of bins. */
  lemma BincountLengthPermutation(a: seq<int>, b: seq<int>, k: nat)
    requires NonNegative(a) && multiset(a) == multiset(b)
    ensures NonNegative(b)
    ensures BincountLength(a, k) == BincountLength(b, k)
  {
    forall i | 0 <= i < |b| ensures b[i] >= 0 {
      assert b[i] in multiset(a);
    }
    SameBins(a, b, BincountLength(a, k));
    SameBins(b, a, BincountLength(b, k));
  }

  lemma SameBins(a: seq<int>, b: seq<int>, k: nat)
    requires InBins(a, k) && multiset(a) == multiset(b)
    ensures InBins(b, k)
  {
    forall i | 0 <= i < |b| ensures 0 <= b[i] < k {
      assert b[i] in multiset(a);
    }
  }

  lemma SameNegatives(a: seq<int>, b: seq<int>)
    requires multiset(a) == multiset(b)
    ensures !NonNegative(a) ==> !NonNegative(b)
  {
    if !NonNegative(a) {
      var i :| 0 <= i < |a| && a[i] < 0;
      assert a[i] in multiset(b);
    }
  }


  // ---------------------------------------------------------------------------------------
  // One bin

  /** At n = 0 the one expected frequency is broadcast: the sample 1 gives the histogram
      [0, 1], expected frequency 1 and statistic (0 - 1)^2 / 1 + (1 - 1)^2 / 1 = 1. */
  lemma SingleBinExample(chi2Cdf: (real, nat) -> real)
    ensures ChiSquareTest([1], 0, chi2Cdf) == Ok(ChiSquareResult(1.0, 0, 1.0 - chi2Cdf(1.0, 0)))
  {
    assert BincountLength([1], 1) == 2;
    assert Bincount([1], 2) == [0, 1] by {
      assert [1][..0] == [];
    }
    assert ChiSquareSum([0, 1], 1.0) == 1.0 by {
      assert [0, 1][..1] == [0];
      assert [0][..0] == [];
    }
  }
}
